=== FILE: README.md ===
# Bridge relay bookkeeping, modelled in Dafny

The relay watches the bridge contract on two chains, Holesky and Sepolia. It
records every `Deposit` and `Distribution` event once in the SQLite table
`bridge_events`. It then relays each unprocessed deposit by calling
`distribute` on the destination bridge. This project models that bookkeeping.
The database is an immutable `Table` value. The chains are oracles.

- `results.dfy`: the `Option` and `Result` wrappers.
- `amounts.dfy`: decimal amount strings. `ToDecimal` is `toString()` of an on-chain uint. `ParseUnits` is `parseUnits` restricted to digit strings.
- `event_store.dfy`: the table and its two schemas, modelled as create-if-absent. It also holds `INSERT OR IGNORE` (`saveEvent`), the pending query (`getPendingDeposits`) and the processed update (`markAsProcessed`).
- `chain_reader.dfy`: `fetchEvents`. It covers the 5000-block lookback, the 500-block windows, the log-to-row mapping, and a scan that stops at the first failed read.
- `indexer.dfy`: `startIndexing`, with its `isIndexing` guard.
- `relay.dfy`: `processDeposits`, a fold over the pending deposits. A chain oracle decides whether each submitted call fails to submit, fails to confirm, or is confirmed.
- `scenario.dfy`: one deposit followed from the chain to the relay.

Three points where the code differs from the intended design. The model follows the code in each case.

- **Missing token.** Neither schema has a `token` column, and `saveEvent` never stores one. So `deposit.token` is undefined for every stored row, and the validation at `indexer/distribute.js:75` skips every row. `Relay.StoredRowsNeverRelayed` proves that a relay pass over any table submits nothing and changes nothing. The relay loop itself is also stated over deposit records that may carry a token (`Relay.RelayAllCalls`, `Relay.RelayAllMarks`). That keeps its validation, scaling and marking rules non-vacuous.
- **Double scaling.** Amounts are stored as the uint's decimal string, so they are already in the smallest unit. `parseUnits(amount, 18)` then multiplies them by 10^18 again. "1000000000000000000" is sent as 10^36, not as 10^18 as the design intends (`Amounts.ScaledOneToken`).
- **Schemas.** `indexer/indexer.js:17-26` creates the table without `processed`. `indexer/database.js:7-17` creates it with `processed INTEGER DEFAULT 0`. Both say `IF NOT EXISTS`, so whichever runs first decides. `distribute.js` opens the database file directly and never loads `database.js`. If the indexer's schema won, SQLite rejects both the pending query and the update with "no such column". The model returns `Failure(NoSuchColumn)` there. The outer `catch` of `processDeposits` turns that into a pass that does nothing. A NULL `processed` can only exist if the column was added to an existing table later. No code here does that, but the pending filter accepts NULL as the source does.

One consequence of the `UNIQUE` hash is worth noting, though the code does not contradict any stated design. `transactionHash` is the table's only key, so two events emitted by one transaction share a key, two Deposits in one transaction for example. Only the first of them is stored; the second insert is ignored (`EventStore.FirstSaveWins`).

## Model

| member | source | states |
|---|---|---|
| Amounts.ToDecimal | indexer/indexer.js:106 | `amount.toString()` yields a canonical digit string (no superfluous leading zero) that reads back as the same integer |
| Amounts.CanonicalRoundTrip | indexer/indexer.js:106 | every canonical digit string is the `toString()` of the integer it denotes (the other direction of the round trip) |
| Amounts.ParseUnits | indexer/distribute.js:92 | `parseUnits` succeeds exactly on a non-empty digit string; `ScaledStoredAmount` states its value for stored amounts |
| Amounts.ScaledStoredAmount | indexer/distribute.js:92 | for a row saved from uint `a`, `parseUnits(amount, 18)` yields exactly `a * 10^18`, with no rounding |
| Amounts.ScaledOneToken | indexer/distribute.js:92 | "1000000000000000000" is converted to 10^36 |
| EventStore.CreateIfAbsent | indexer/database.js:7 | `CREATE TABLE IF NOT EXISTS` returns an existing table unchanged; otherwise it creates an empty table, with the id counter at 0 and the `processed` column only if the schema has it; either way the store invariants hold |
| EventStore.SchemaFirstWins | indexer/database.js:7 | applying any schema to an existing table changes nothing, so the first schema applied decides whether `processed` exists |
| EventStore.IndexerSchemaHidesProcessed | indexer/indexer.js:17-26 | a table created by the indexer's schema stays without `processed` after the store schema runs, and its pending query fails |
| EventStore.InsertOrIgnore | indexer/indexer.js:69-71 | a stored hash leaves the rows unchanged but still advances the AUTOINCREMENT counter by one, as SQLite does for an ignored insert; a fresh hash appends exactly one row, keeps every earlier row and advances the counter by one; the hash is stored afterwards either way, and no other hash appears |
| EventStore.InsertFresh | indexer/indexer.js:69-71 | a fresh insert gets id `lastId + 1`, which is above every id in use, with the call's fields, and `processed = 0` under the store schema or NULL without the column; earlier rows are unchanged |
| EventStore.InsertPreservesValid | indexer/database.js:8-11 | insert-or-ignore keeps hashes unique and ids increasing and bounded by the counter |
| EventStore.InsertIdempotent | indexer/indexer.js:69 | saving the same event twice leaves the same rows as saving it once; only the id counter is one higher |
| EventStore.DuplicateLeavesIdGap | indexer/indexer.js:18 | a fresh event saved after an ignored duplicate gets id `lastId + 2`, so the ignored insert leaves a gap in the ids |
| EventStore.FirstSaveWins | indexer/indexer.js:21 | of two saves with the same hash and any payloads, the second leaves the rows as the first made them and only advances the id counter; exactly one row carries that hash, with the first payload |
| EventStore.SaveAll | indexer/indexer.js:103-117 | the saves of one scan, applied in call order, advance the id counter once per call and add at most one row per call; the rows themselves are stated by `SaveAllExtends`, `SaveAllStoresEveryHash` and `SaveAllOnlySaved` |
| EventStore.SaveAllExtends | indexer/database.js:8 | a sequence of saves only appends: earlier rows stay in place unchanged, and the id counter never decreases, so ids are never reused |
| EventStore.SaveAllPreservesValid | indexer/database.js:11 | `transactionHash` stays unique across all rows after any sequence of saves |
| EventStore.SaveAllStoresEveryHash | indexer/indexer.js:67-71 | after a sequence of saves, every saved hash is in the table, whether new or a duplicate |
| EventStore.SaveAllOnlySaved | indexer/indexer.js:69-71 | conversely, a hash stored after a sequence of saves was stored before or was saved by one of the calls |
| EventStore.PendingRows | indexer/distribute.js:36 | a row is returned exactly when it is a Deposit whose `processed` is NULL or 0 |
| EventStore.Pending | indexer/distribute.js:33-44 | the pending query fails exactly when the table has no `processed` column; otherwise it returns exactly the pending rows |
| EventStore.PendingRowsAppend | indexer/distribute.js:36 | the filter keeps table order: it distributes over concatenation |
| EventStore.MarkProcessed | indexer/distribute.js:50 | the update fails exactly without a `processed` column; otherwise it sets `processed = 1` on every row with the hash and leaves every other row unchanged |
| EventStore.MarkRemovesFromPending | indexer/distribute.js:50 | after marking `h`, no pending row has hash `h` |
| EventStore.MarkIdempotent | indexer/distribute.js:50 | marking twice equals marking once |
| EventStore.MarkAbsentNoop | indexer/distribute.js:50 | marking a hash that is not stored changes nothing |
| EventStore.MarkPreservesValid | indexer/distribute.js:50 | marking keeps the table valid and keeps the set of stored hashes |
| ChainReader.ScanStart | indexer/indexer.js:91-92 | the scan starts at most 5000 blocks before the latest block, and exactly 5000 before it unless it starts at block 0 |
| ChainReader.Windows | indexer/indexer.js:94-95 | window `i` starts `500 * i` after the start and ends at `min(from + 499, latest)`; the first window starts at the start, the last ends at the latest block, and there are none when the start is past the latest block |
| ChainReader.WindowsContiguous | indexer/indexer.js:119 | each window starts right after the previous one ends, and earlier windows end before later ones start (no overlap) |
| ChainReader.WindowsCover | indexer/indexer.js:94-119 | a block lies in some window exactly when it is in `[start, latest]` |
| ChainReader.WindowCount | indexer/indexer.js:94-95 | a scan of `[from, latest]` has `(latest - from) / 500 + 1` windows |
| ChainReader.WindowsAt10000 | indexer/indexer.js:89-95 | for latest block 10000 the windows are `[5000,5499], ..., [9500,9999], [10000,10000]` |
| ChainReader.DepositSaves | indexer/indexer.js:103-107 | each Deposit log gives one Deposit save, in log order, with the log's hash, `from` as sender, `to` as recipient and a canonical amount string that reads back as the log's uint; token and nonce are not stored |
| ChainReader.DistributionSaves | indexer/indexer.js:113-117 | each Distribution log gives one Distribution save, in log order, with the log's hash, "Bridge" as sender, `to` as recipient and a canonical amount string that reads back as the log's uint |
| ChainReader.LogMapping | indexer/indexer.js:105-116 | a Deposit row stores hash, `from` as sender, `to` as recipient and the amount's canonical decimal string; a Distribution row stores "Bridge" as sender |
| ChainReader.WindowDepositsFirst | indexer/indexer.js:100-117 | within a window every Deposit save precedes every Distribution save |
| ChainReader.ScanComplete | indexer/indexer.js:94-120 | a scan completes exactly when every window's queries succeed; it then saves every window's events in window order and queries Deposits and then Distributions for each window in turn |
| ChainReader.ScanStopsAtFailure | indexer/indexer.js:124-126 | a failed query in window `k` ends the scan: the earlier windows' saves and the already-read Deposits of window `k` are kept, and no later window is queried |
| ChainReader.ScanWindows | indexer/indexer.js:94-120 | the window loop makes at most two queries per window; which saves and queries it makes is stated by `ScanComplete` and `ScanStopsAtFailure` |
| ChainReader.FetchEvents | indexer/indexer.js:85-127 | a scan's first read is the latest-block query; without a latest block it reads nothing more, saves nothing and is incomplete; `FetchReadsOneChain` states that every read goes to the scanned chain |
| ChainReader.FetchReadsOneChain | indexer/indexer.js:85-89 | a scan first asks for the latest block, and every read goes to the chain being scanned |
| ChainReader.FetchWithoutLatestBlock | indexer/indexer.js:89 | if the latest block cannot be read, the scan saves nothing and reads nothing more |
| Indexer.StartIndexing | indexer/indexer.js:132-147 | with the guard Running a tick changes nothing and reads nothing; from Idle the guard is Idle again afterwards |
| Indexer.TickReadOrder | indexer/indexer.js:139-141 | an idle tick reads Holesky first and Sepolia after, and always reads Sepolia even if the Holesky scan failed |
| Indexer.TickKeepsRows | indexer/indexer.js:124-126 | a tick keeps every earlier row unchanged and in place, even when a scan fails part-way, and keeps the table valid |
| Indexer.TickStoresScannedEvents | indexer/indexer.js:140-141 | after an idle tick the stored hashes are exactly the earlier ones plus those of every event either chain's scan delivered, including events read before a failure |
| Relay.FromRow | indexer/distribute.js:75 | a stored row seen by the loop always has a missing field, its undefined token, and is never relayable, whatever its columns hold |
| Relay.PendingDepositsNotRelayable | indexer/distribute.js:64-78 | no deposit the pending query hands to the loop passes validation |
| Relay.RelayOne | indexer/distribute.js:75-113 | one iteration makes a `distribute` call exactly when no field is missing and the amount is numeric. The call is `(token, recipient, value * 10^18, id)`. The table changes only when that call was confirmed |
| Relay.ProcessDeposits | indexer/distribute.js:61-69 | a failing pending query, or an empty pending list, produces no calls and no change |
| Relay.RelayAll | indexer/distribute.js:71-114 | the loop makes at most one call per deposit and keeps the row count, the id counter and the schema; which calls and marks it makes is stated by `RelayAllCalls` and `RelayAllMarks` |
| Relay.RelayAllCalls | indexer/distribute.js:71-113 | a pass submits exactly one call per valid deposit, in list order, whatever earlier calls returned |
| Relay.RelayOneMarks | indexer/distribute.js:104-107 | one iteration marks exactly the rows with the deposit's hash, and only when the deposit is valid and its call confirmed |
| Relay.RelayAllMarks | indexer/distribute.js:92-113 | after a pass, a row is marked exactly when some valid deposit with its hash had its call confirmed; every other row is unchanged |
| Relay.RelayAllWithoutColumn | indexer/distribute.js:107-113 | without a `processed` column the failed marks are caught and the table is unchanged |
| Relay.SkippedDepositUntouched | indexer/distribute.js:75-84 | a deposit with a missing field or a non-numeric amount such as "abc" produces no call and no change |
| Relay.StoredRowsNeverRelayed | indexer/distribute.js:75-78 | stored rows carry no token, so a pass over any table submits nothing and changes nothing |
| Scenario.DepositAsWritten | indexer/indexer.js:103-107 | a Deposit of 2*10^18 to "0xR" becomes one pending row with id 1 and `processed = 0`; the relay pass then skips it, making no call and changing nothing |
| Scenario.DepositStored | indexer/indexer.js:103-107 | for any amount, the saved Deposit is the only row, its amount string reads back as the amount, it is pending, and a re-save only moves the id counter to 2 |
| Scenario.DepositWithToken | indexer/distribute.js:92-107 | were the token present, the relay would call `distribute("0xT", "0xR", amount * 10^18, 1)`; once that is confirmed the row is processed and nothing is pending |

## Left out

- Environment loading and the `process.exit` checks are configuration, not logic.
- Logging is left out. The timestamp column default is not modelled; there is no clock.
- The ethers providers, contracts, wallet signing, `queryFilter` and `tx.wait` are foreign network calls. They are replaced by oracles: `ChainReader.Chain` for reads and `DistributeCall -> TxOutcome` for the relay. Every query failure and every submission or confirmation failure is an oracle answer. One example is the ABI encoder refusing an amount of 2^256 or more.
- The SQLite driver and its callbacks are replaced by synchronous pure functions. `saveEvent` does not await its `db.run`. The model applies each insert at once, in call order. It leaves out other SQLite errors an insert might report, and it leaves out NULL transaction hashes.
- The `setInterval` timers (15 s and 20 s) and any overlap between ticks are left out. This includes two relay ticks selecting the same deposit, and an indexer tick racing a relay tick. These are concurrency; the model covers single sequential runs. The guard is modelled as one tick that sees the flag's value.
- EventStore.Pending: a pass that runs before any schema has created `bridge_events` gets "no such table" (the relay opens the file at `indexer/distribute.js:30` without creating a table). The outer `catch` at `indexer/distribute.js:115` turns that into a pass with no calls and no change. The model has no absent-table case, because `Relay.ProcessDeposits` always takes an existing table.
- EventStore.MarkProcessed: the only failure modelled is the missing `processed` column. A driver failure of the UPDATE is not modelled, an I/O error for example. In the source, the `catch` at `indexer/distribute.js:108` would then leave a confirmed deposit pending, and the next pass would submit `distribute` for it again. `Relay.RelayAllMarks`' direction "confirmed implies marked" holds only under this assumption. It does not promise that a deposit is distributed at most once.
- Indexer.StartIndexing: the `catch`/`finally` of `startIndexing` is not a separate path. `fetchEvents` catches every error itself, so nothing reaches it. The guard is Idle after every run from Idle.
- Relay.RelayOne: numeric means a non-empty string of decimal digits. JavaScript `isNaN` accepts hex, whitespace, exponent and fractional forms, and `parseUnits` accepts fractions. Those forms are treated as non-numeric and skipped. Stored amounts are always digit strings, so stored rows are unaffected.
- Uint256 bounds on event amounts and nonces are not imposed; amounts are unbounded naturals.

=== FILE: amounts.dfy ===
/** Token amounts as the relay stores and converts them: arbitrary-precision
    integers written as decimal strings in the token's smallest unit. */
module Amounts {
  import opened Results

  /** Decimals of the reference token, the second argument of `parseUnits`. */
  const TokenDecimals: nat := 18

  predicate IsDigit(c: char) {
    '0' <= c <= '9'
  }

  predicate AllDigits(s: string) {
    forall i :: 0 <= i < |s| ==> IsDigit(s[i])
  }

  /** A non-empty string of decimal digits: the only amounts this model
      treats as numeric. */
  predicate IsDigits(s: string) {
    |s| > 0 && AllDigits(s)
  }

  /** Digit strings without superfluous leading zeros, as a big integer's
      `toString()` writes them. */
  predicate IsCanonical(s: string) {
    IsDigits(s) && (s[0] == '0' ==> s == "0")
  }

  function DigitValue(c: char): nat
    requires IsDigit(c)
  {
    c as int - '0' as int
  }

  function DigitChar(d: nat): (c: char)
    requires d < 10
    ensures IsDigit(c) && DigitValue(c) == d
  {
    ('0' as int + d) as char
  }

  /** The integer a digit string denotes, read most significant digit first. */
  function DecimalValue(s: string): nat
    requires AllDigits(s)
  {
    if s == [] then 0 else 10 * DecimalValue(s[..|s| - 1]) + DigitValue(s[|s| - 1])
  }

  function Pow10(k: nat): (p: nat)
    ensures p >= 1
  {
    if k == 0 then 1 else 10 * Pow10(k - 1)
  }

  /** `amount.toString()` on an on-chain uint: the canonical decimal string
      of `n`, which reads back as `n`. */
  function ToDecimal(n: nat): (s: string)
    ensures IsCanonical(s)
    ensures DecimalValue(s) == n
  {
    if n < 10 then [DigitChar(n)]
    else
      var prefix := ToDecimal(n / 10);
      var s := prefix + [DigitChar(n % 10)];
      assert s[..|s| - 1] == prefix;
      s
  }

  /** `parseUnits(s, decimals)` restricted to digit strings: the integer
      value of `s` shifted left by `decimals` decimal places. Any other
      string is a conversion error. */
  function ParseUnits(s: string, decimals: nat): (r: Option<nat>)
    ensures r.Some? <==> IsDigits(s)
  {
    if IsDigits(s) then Some(DecimalValue(s) * Pow10(decimals)) else None
  }

  /** A digit string whose first digit is not zero denotes at least 1. */
  lemma {:induction false} LeadingDigitPositive(s: string)
    requires IsDigits(s) && s[0] != '0'
    ensures DecimalValue(s) >= 1
  {
    if |s| > 1 {
      var prefix := s[..|s| - 1];
      assert prefix[0] == s[0];
      LeadingDigitPositive(prefix);
    }
  }

  /** The other half of the round trip: a canonical digit string is exactly
      the `toString()` of the integer it denotes. */
  lemma {:induction false} CanonicalRoundTrip(s: string)
    requires IsCanonical(s)
    ensures ToDecimal(DecimalValue(s)) == s
  {
    var n := DecimalValue(s);
    if |s| == 1 {
      assert s[..0] == [] && DecimalValue(s[..0]) == 0;
      assert n == 10 * DecimalValue(s[..0]) + DigitValue(s[0]);
      assert n == DigitValue(s[0]);
      assert ToDecimal(n) == [DigitChar(n)];
    } else {
      var prefix := s[..|s| - 1];
      assert prefix[0] == s[0];
      assert s[0] != '0';
      LeadingDigitPositive(prefix);
      CanonicalRoundTrip(prefix);
      assert n / 10 == DecimalValue(prefix);
      assert n % 10 == DigitValue(s[|s| - 1]);
      assert DigitChar(n % 10) == s[|s| - 1];
      assert s == prefix + [s[|s| - 1]];
    }
  }

  /** Appending a zero digit multiplies the value by ten. */
  lemma AppendZero(s: string)
    requires AllDigits(s)
    ensures AllDigits(s + "0")
    ensures DecimalValue(s + "0") == 10 * DecimalValue(s)
  {
    assert (s + "0")[..|s|] == s;
  }

  /** The digit string "1" followed by `k` zeros. */
  function OneFollowedByZeros(k: nat): (s: string)
    ensures s == "1" + seq(k, i => '0')
  {
    if k == 0 then "1" else OneFollowedByZeros(k - 1) + "0"
  }

  lemma {:induction false} OneFollowedByZerosValue(k: nat)
    ensures DecimalValue(OneFollowedByZeros(k)) == Pow10(k)
  {
    if k > 0 {
      OneFollowedByZerosValue(k - 1);
      AppendZero(OneFollowedByZeros(k - 1));
    }
  }

  /** The amount the relay submits for a row saved from an on-chain uint `a`
      is `a * 10^18`, exact and without rounding: the stored string is
      already in the smallest unit and is scaled once more. */
  lemma ScaledStoredAmount(a: nat)
    ensures ParseUnits(ToDecimal(a), TokenDecimals) == Some(a * Pow10(18))
  {
  }

  /** One whole token in the smallest unit, "1000000000000000000", is
      submitted as 10^36, not 10^18. */
  lemma ScaledOneToken()
    ensures ParseUnits("1000000000000000000", TokenDecimals) == Some(Pow10(36))
  {
    OneFollowedByZerosValue(18);
    var one := "1000000000000000000";
    assert forall i | 1 <= i < |one| :: one[i] == '0';
    assert OneFollowedByZeros(18) == one;
    assert Pow10(18) * Pow10(18) == Pow10(36) by {
      Pow10Add(18, 18);
    }
  }

  lemma {:induction false} Pow10Add(a: nat, b: nat)
    ensures Pow10(a) * Pow10(b) == Pow10(a + b)
  {
    if a > 0 {
      Pow10Add(a - 1, b);
    }
  }
}

=== FILE: chain_reader.dfy ===
/** `fetchEvents`: read one chain's Deposit and Distribution logs over the
    most recent blocks, in fixed-size windows, and turn each log into a
    `saveEvent` call. The RPC provider is an oracle: it reports the latest
    block and answers each window query with logs or with an error. */
module ChainReader {
  import opened Results
  import opened Amounts
  import opened EventStore

  /** How far back from the latest block a scan starts. */
  const Lookback: nat := 5000
  /** Blocks per `queryFilter` window. */
  const BatchSize: nat := 500
  /** The sender stored for Distribution rows, whose log names no sender. */
  const BridgeSender := "Bridge"

  /** `Deposit(token, from, to, amount, nonce)` as the contract logs it. */
  datatype DepositLog = DepositLog(
    transactionHash: string, token: string, from: string, to: string, amount: nat, nonce: nat)

  /** `Distribution(token, to, amount, nonce)` as the contract logs it. */
  datatype DistributionLog = DistributionLog(
    transactionHash: string, token: string, to: string, amount: nat, nonce: nat)

  /** An inclusive block range `[from, to]`. */
  datatype Window = Window(from: nat, to: nat)

  /** One chain's bridge contract as the reader sees it: `getBlockNumber`
      and the two `queryFilter` calls, each of which may fail. */
  datatype Chain = Chain(
    latestBlock: Option<nat>,
    deposits: Window -> Option<seq<DepositLog>>,
    distributions: Window -> Option<seq<DistributionLog>>)

  /** The RPC reads a scan performs, in order. */
  datatype Read =
    | GetBlockNumber(chain: string)
    | QueryDeposits(chain: string, window: Window)
    | QueryDistributions(chain: string, window: Window)

  /** What one scan did: its `saveEvent` calls and RPC reads in order (`trace`), and
      whether it reached the last window. */
  datatype Scan = Scan(saves: seq<SaveCall>, trace: seq<Read>, complete: bool)

  function Min(a: nat, b: nat): nat {
    if a <= b then a else b
  }

  /** `max(0, latest - 5000)`: the scan reaches back `Lookback` blocks, or
      to the genesis block when the chain is shorter. */
  function ScanStart(latest: nat): (start: nat)
    ensures start <= latest
    ensures latest - start <= Lookback
    ensures latest - start < Lookback ==> start == 0
  {
    if latest < Lookback then 0 else latest - Lookback
  }

  /** The windows the `while (fromBlock <= latestBlock)` loop visits: window
      `i` starts `BatchSize * i` blocks after `from` and ends
      `BatchSize - 1` blocks later or at `latest`, whichever comes first;
      the first starts at `from` and the last ends at `latest`. */
  function Windows(from: nat, latest: nat): (ws: seq<Window>)
    ensures from > latest <==> ws == []
    ensures ws != [] ==> ws[0].from == from && ws[|ws| - 1].to == latest
    ensures forall i :: 0 <= i < |ws| ==>
              && ws[i].from == from + BatchSize * i
              && ws[i].to == Min(ws[i].from + BatchSize - 1, latest)
              && ws[i].from <= ws[i].to
    decreases latest + 1 - from
  {
    if from > latest then []
    else
      var to := Min(from + BatchSize - 1, latest);
      [Window(from, to)] + Windows(to + 1, latest)
  }

  /** The row a Deposit log becomes: `from` and `to` as sender and
      recipient, the amount's decimal string; token and nonce are dropped. */
  function DepositSave(chain: string, e: DepositLog): SaveCall {
    SaveCall(chain, DepositEvent, e.transactionHash, e.from, e.to, ToDecimal(e.amount))
  }

  /** The row a Distribution log becomes, with the synthetic "Bridge" sender. */
  function DistributionSave(chain: string, e: DistributionLog): SaveCall {
    SaveCall(chain, DistributionEvent, e.transactionHash, BridgeSender, e.to, ToDecimal(e.amount))
  }

  /** One Deposit row per log, in log order, each carrying its log's hash,
      `from`, `to` and an amount string that reads back as the log's uint. */
  function DepositSaves(chain: string, es: seq<DepositLog>): (cs: seq<SaveCall>)
    ensures |cs| == |es|
    ensures forall k :: 0 <= k < |es| ==>
              && cs[k].chain == chain && cs[k].event == DepositEvent
              && cs[k].transactionHash == es[k].transactionHash
              && cs[k].sender == es[k].from && cs[k].recipient == es[k].to
              && IsCanonical(cs[k].amount) && DecimalValue(cs[k].amount) == es[k].amount
  {
    seq(|es|, k requires 0 <= k < |es| => DepositSave(chain, es[k]))
  }

  /** One Distribution row per log, in log order, each carrying its log's
      hash, the "Bridge" sender, `to` and an amount string that reads back
      as the log's uint. */
  function DistributionSaves(chain: string, es: seq<DistributionLog>): (cs: seq<SaveCall>)
    ensures |cs| == |es|
    ensures forall k :: 0 <= k < |es| ==>
              && cs[k].chain == chain && cs[k].event == DistributionEvent
              && cs[k].transactionHash == es[k].transactionHash
              && cs[k].sender == BridgeSender && cs[k].recipient == es[k].to
              && IsCanonical(cs[k].amount) && DecimalValue(cs[k].amount) == es[k].amount
  {
    seq(|es|, k requires 0 <= k < |es| => DistributionSave(chain, es[k]))
  }

  /** The loop body for windows `ws`: query Deposits, save each, query
      Distributions, save each, go on. A failing query is caught by the
      scan's `catch`, which ends the scan: the saves made so far stay. */
  function ScanWindows(name: string, c: Chain, ws: seq<Window>): (s: Scan)
    ensures |s.trace| <= 2 * |ws|
    decreases |ws|
  {
    if ws == [] then Scan([], [], true)
    else
      var w := ws[0];
      match c.deposits(w)
      case None => Scan([], [QueryDeposits(name, w)], false)
      case Some(deps) =>
        match c.distributions(w)
        case None => Scan(DepositSaves(name, deps), [QueryDeposits(name, w), QueryDistributions(name, w)], false)
        case Some(dists) =>
          var rest := ScanWindows(name, c, ws[1..]);
          Scan(DepositSaves(name, deps) + DistributionSaves(name, dists) + rest.saves,
               [QueryDeposits(name, w), QueryDistributions(name, w)] + rest.trace,
               rest.complete)
  }

  /** `fetchEvents(provider, contract, name)`: ask for the latest block,
      then scan the windows from `ScanStart`. Without a latest block the
      scan saves nothing and reads nothing more. */
  function FetchEvents(name: string, c: Chain): (s: Scan)
    ensures |s.trace| >= 1 && s.trace[0] == GetBlockNumber(name)
    ensures c.latestBlock.None? ==> s.saves == [] && |s.trace| == 1 && !s.complete
  {
    match c.latestBlock
    case None => Scan([], [GetBlockNumber(name)], false)
    case Some(latest) =>
      var s := ScanWindows(name, c, Windows(ScanStart(latest), latest));
      Scan(s.saves, [GetBlockNumber(name)] + s.trace, s.complete)
  }

  // ---------------------------------------------------------------------
  // Windows

  /** The windows neither overlap nor leave gaps: each starts right after
      the previous one ends. */
  lemma WindowsContiguous(from: nat, latest: nat)
    ensures var ws := Windows(from, latest);
            && (forall i :: 0 <= i < |ws| - 1 ==> ws[i + 1].from == ws[i].to + 1)
            && (forall i, j :: 0 <= i < j < |ws| ==> ws[i].to < ws[j].from)
  {
  }

  /** Every block of `[from, latest]`, and no other, lies in some window. */
  lemma WindowsCover(from: nat, latest: nat, b: nat)
    ensures var ws := Windows(from, latest);
            (exists i :: 0 <= i < |ws| && ws[i].from <= b <= ws[i].to) <==> from <= b <= latest
  {
    var ws := Windows(from, latest);
    if from <= b <= latest {
      var i := (b - from) / BatchSize;
      WindowCount(from, latest);
      assert 0 <= i < |ws| && ws[i].from <= b <= ws[i].to;
    }
  }

  /** A scan of `[from, latest]` makes one window per started 500 blocks. */
  lemma WindowCount(from: nat, latest: nat)
    requires from <= latest
    ensures |Windows(from, latest)| == (latest - from) / BatchSize + 1
  {
    var ws := Windows(from, latest);
    var n := |ws|;
    var last := ws[n - 1];
    assert last.from == from + BatchSize * (n - 1) && last.to == latest;
    if n >= 2 {
      var prev := ws[n - 2];
      assert prev.to < last.from;
      assert prev.to == prev.from + BatchSize - 1;
    }
  }

  /** For a latest block of 10000 the scan starts at 5000 and reads
      `[5000, 5499], ..., [9500, 9999], [10000, 10000]`. */
  lemma WindowsAt10000()
    ensures ScanStart(10000) == 5000
    ensures var ws := Windows(ScanStart(10000), 10000);
            && |ws| == 11
            && (forall i :: 0 <= i < 10 ==> ws[i] == Window(5000 + 500 * i, 5499 + 500 * i))
            && ws[10] == Window(10000, 10000)
  {
    WindowCount(5000, 10000);
  }

  // ---------------------------------------------------------------------
  // Event mapping and order

  /** A Deposit row carries the log's hash, `from`, `to` and amount (its
      decimal string reads back as the uint); a Distribution row carries
      "Bridge" as sender. */
  lemma LogMapping(chain: string, d: DepositLog, e: DistributionLog)
    ensures var s := DepositSave(chain, d);
            && s.event == DepositEvent && s.chain == chain && s.transactionHash == d.transactionHash
            && s.sender == d.from && s.recipient == d.to
            && IsCanonical(s.amount) && DecimalValue(s.amount) == d.amount
    ensures var s := DistributionSave(chain, e);
            && s.event == DistributionEvent && s.chain == chain && s.transactionHash == e.transactionHash
            && s.sender == BridgeSender && s.recipient == e.to
            && IsCanonical(s.amount) && DecimalValue(s.amount) == e.amount
  {
  }

  /** The saves of one window when both of its queries succeed. */
  function WindowSaves(name: string, c: Chain, w: Window): Option<seq<SaveCall>> {
    match (c.deposits(w), c.distributions(w))
    case (Some(deps), Some(dists)) => Some(DepositSaves(name, deps) + DistributionSaves(name, dists))
    case _ => None
  }

  /** Inside a window every Deposit save precedes every Distribution save. */
  lemma WindowDepositsFirst(name: string, c: Chain, w: Window)
    requires WindowSaves(name, c, w).Some?
    ensures var cs := WindowSaves(name, c, w).value;
            forall i, j ::
              (0 <= i < |cs| && 0 <= j < |cs| && cs[i].event == DistributionEvent && cs[j].event == DepositEvent)
              ==> j < i
  {
  }

  /** The saves of a run of windows that all succeed, window after window. */
  function AllSaves(name: string, c: Chain, ws: seq<Window>): seq<SaveCall>
    requires forall i :: 0 <= i < |ws| ==> WindowSaves(name, c, ws[i]).Some?
    decreases |ws|
  {
    if ws == [] then [] else WindowSaves(name, c, ws[0]).value + AllSaves(name, c, ws[1..])
  }

  /** A scan completes exactly when every window's queries succeed; then it
      saves every window's logs in window order and reads each window's
      Deposits and Distributions, in that order. */
  lemma ScanComplete(name: string, c: Chain, ws: seq<Window>)
    ensures var s := ScanWindows(name, c, ws);
            s.complete <==> forall i :: 0 <= i < |ws| ==> WindowSaves(name, c, ws[i]).Some?
    ensures var s := ScanWindows(name, c, ws);
            s.complete ==>
              && s.saves == AllSaves(name, c, ws)
              && |s.trace| == 2 * |ws|
              && (forall i :: 0 <= i < |ws| ==>
                    s.trace[2 * i] == QueryDeposits(name, ws[i]) &&
                    s.trace[2 * i + 1] == QueryDistributions(name, ws[i]))
  {
    ScanCompleteSaves(name, c, ws);
    ScanCompleteTrace(name, c, ws);
  }

  /** The completeness and saves half of `ScanComplete`. */
  lemma {:induction false} ScanCompleteSaves(name: string, c: Chain, ws: seq<Window>)
    ensures var s := ScanWindows(name, c, ws);
            s.complete <==> forall i :: 0 <= i < |ws| ==> WindowSaves(name, c, ws[i]).Some?
    ensures var s := ScanWindows(name, c, ws);
            s.complete ==> s.saves == AllSaves(name, c, ws)
    decreases |ws|
  {
    if ws != [] {
      ScanCompleteSaves(name, c, ws[1..]);
      var s := ScanWindows(name, c, ws);
      if !s.complete && WindowSaves(name, c, ws[0]).Some? {
        var k :| 0 <= k < |ws[1..]| && WindowSaves(name, c, ws[1..][k]).None?;
        assert ws[1..][k] == ws[k + 1];
      }
    }
  }

  /** The trace half of `ScanComplete`: a complete scan reads each window's
      Deposits and then its Distributions, window after window. */
  lemma {:induction false} ScanCompleteTrace(name: string, c: Chain, ws: seq<Window>)
    ensures var s := ScanWindows(name, c, ws);
            s.complete ==>
              && |s.trace| == 2 * |ws|
              && (forall i :: 0 <= i < |ws| ==>
                    s.trace[2 * i] == QueryDeposits(name, ws[i]) &&
                    s.trace[2 * i + 1] == QueryDistributions(name, ws[i]))
    decreases |ws|
  {
    if ws != [] {
      ScanCompleteTrace(name, c, ws[1..]);
      var s := ScanWindows(name, c, ws);
      if s.complete {
        var rest := ScanWindows(name, c, ws[1..]);
        assert s.trace == [QueryDeposits(name, ws[0]), QueryDistributions(name, ws[0])] + rest.trace;
        forall i | 1 <= i < |ws|
          ensures s.trace[2 * i] == QueryDeposits(name, ws[i])
          ensures s.trace[2 * i + 1] == QueryDistributions(name, ws[i])
        {
          assert ws[i] == ws[1..][i - 1];
          assert s.trace[2 * i] == rest.trace[2 * (i - 1)];
          assert s.trace[2 * i + 1] == rest.trace[2 * (i - 1) + 1];
        }
      }
    }
  }

  /** The saves of a failing window: its Deposits when only the
      Distribution query failed, nothing when the Deposit query failed. */
  function PartialSaves(name: string, c: Chain, w: Window): seq<SaveCall> {
    match c.deposits(w)
    case Some(deps) => DepositSaves(name, deps)
    case None => []
  }

  /** A failing query at window `k` ends the scan there: the saves of the
      earlier windows and of the part of window `k` already read are made,
      the scan is incomplete, and no later window is read. */
  lemma ScanStopsAtFailure(name: string, c: Chain, ws: seq<Window>, k: nat)
    requires k < |ws|
    requires forall i :: 0 <= i < k ==> WindowSaves(name, c, ws[i]).Some?
    requires WindowSaves(name, c, ws[k]).None?
    ensures var s := ScanWindows(name, c, ws);
            && !s.complete
            && s.saves == AllSaves(name, c, ws[..k]) + PartialSaves(name, c, ws[k])
            && |s.trace| == 2 * k + (if c.deposits(ws[k]).Some? then 2 else 1)
            && (forall r :: r in s.trace ==> !r.GetBlockNumber? && r.window in ws[..k + 1])
  {
    ScanStopsSaves(name, c, ws, k);
    ScanStopsTrace(name, c, ws, k);
  }

  lemma {:induction false} ScanStopsSaves(name: string, c: Chain, ws: seq<Window>, k: nat)
    requires k < |ws|
    requires forall i :: 0 <= i < k ==> WindowSaves(name, c, ws[i]).Some?
    requires WindowSaves(name, c, ws[k]).None?
    ensures var s := ScanWindows(name, c, ws);
            && !s.complete
            && s.saves == AllSaves(name, c, ws[..k]) + PartialSaves(name, c, ws[k])
    decreases |ws|
  {
    if k == 0 {
      assert ws[..0] == [];
    } else {
      ScanStopsSaves(name, c, ws[1..], k - 1);
      assert ws[1..][k - 1] == ws[k];
      assert WindowSaves(name, c, ws[0]).Some?;
      assert ws[1..][..k - 1] == ws[..k][1..];
    }
  }

  lemma {:induction false} ScanStopsTrace(name: string, c: Chain, ws: seq<Window>, k: nat)
    requires k < |ws|
    requires forall i :: 0 <= i < k ==> WindowSaves(name, c, ws[i]).Some?
    requires WindowSaves(name, c, ws[k]).None?
    ensures var s := ScanWindows(name, c, ws);
            && |s.trace| == 2 * k + (if c.deposits(ws[k]).Some? then 2 else 1)
            && (forall r :: r in s.trace ==> !r.GetBlockNumber? && r.window in ws[..k + 1])
    decreases |ws|
  {
    var s := ScanWindows(name, c, ws);
    if k == 0 {
      assert ws[..1] == [ws[0]];
    } else {
      ScanStopsTrace(name, c, ws[1..], k - 1);
      var rest := ScanWindows(name, c, ws[1..]);
      assert ws[1..][k - 1] == ws[k];
      assert WindowSaves(name, c, ws[0]).Some?;
      assert s.trace == [QueryDeposits(name, ws[0]), QueryDistributions(name, ws[0])] + rest.trace;
      assert ws[1..][..k] == ws[1..k + 1];
      forall r | r in s.trace
        ensures !r.GetBlockNumber? && r.window in ws[..k + 1]
      {
        if r !in rest.trace {
          assert r.window == ws[0];
        } else {
          assert r.window in ws[1..][..k];
        }
      }
    }
  }

  /** Every read of a scan is addressed to the scanned chain, and the first
      one asks for the latest block. */
  lemma FetchReadsOneChain(name: string, c: Chain)
    ensures var s := FetchEvents(name, c);
            && |s.trace| >= 1 && s.trace[0] == GetBlockNumber(name)
            && forall r :: r in s.trace ==> r.chain == name
  {
    if c.latestBlock.Some? {
      var latest := c.latestBlock.value;
      ScanReadsOneChain(name, c, Windows(ScanStart(latest), latest));
    }
  }

  lemma {:induction false} ScanReadsOneChain(name: string, c: Chain, ws: seq<Window>)
    ensures forall r :: r in ScanWindows(name, c, ws).trace ==> r.chain == name
    decreases |ws|
  {
    if ws != [] {
      ScanReadsOneChain(name, c, ws[1..]);
    }
  }

  /** A chain whose provider cannot report its latest block is not read
      any further and saves nothing. */
  lemma FetchWithoutLatestBlock(name: string, c: Chain)
    requires c.latestBlock.None?
    ensures FetchEvents(name, c) == Scan([], [GetBlockNumber(name)], false)
  {
  }
}

=== FILE: event_store.dfy ===
/** The `bridge_events` table: one row per observed bridge event, keyed for
    deduplication by its transaction hash, with a nullable `processed` flag
    that only the relay writes. SQLite is replaced by an immutable value. */
module EventStore {
  import opened Results

  const DepositEvent := "Deposit"
  const DistributionEvent := "Distribution"

  /** One stored row. `processed` is `None` for SQL NULL. The store-assigned
      timestamp is not modelled. */
  datatype Row = Row(
    id: nat,
    chain: string,
    event: string,
    transactionHash: string,
    sender: string,
    recipient: string,
    amount: string,
    processed: Option<int>)

  /** The table. `hasProcessed` says whether the `processed` column exists;
      `lastId` is the AUTOINCREMENT counter kept in `sqlite_sequence`. SQLite
      advances it for every `INSERT OR IGNORE`, including one that the unique
      constraint then drops, so it is at least every id in use. Rows are
      kept in insertion order, the order a plain `SELECT` returns them. */
  datatype Table = Table(hasProcessed: bool, rows: seq<Row>, lastId: nat)

  /** The two `CREATE TABLE IF NOT EXISTS` statements differ only in the
      `processed INTEGER DEFAULT 0` column. */
  datatype Schema = Schema(processedColumn: bool)

  /** The schema the indexer creates: no `processed` column. */
  const IndexerSchema := Schema(false)
  /** The schema of the shared database module: `processed` defaults to 0. */
  const StoreSchema := Schema(true)

  /** The one database failure the model represents: a query naming the
      `processed` column on a table created without it. A missing table and
      driver errors such as I/O failures are not represented: every
      modelled statement runs against an existing table and otherwise
      succeeds. */
  datatype DbError = NoSuchColumn

  /** The arguments of one `saveEvent` call. */
  datatype SaveCall = SaveCall(
    chain: string,
    event: string,
    transactionHash: string,
    sender: string,
    recipient: string,
    amount: string)

  predicate HasHash(t: Table, h: string) {
    exists i :: 0 <= i < |t.rows| && t.rows[i].transactionHash == h
  }

  /** What the table's constraints and defaults guarantee: ids positive,
      strictly increasing in insertion order and never above the
      AUTOINCREMENT counter; transaction hashes unique; no `processed` value
      without a `processed` column. */
  ghost predicate Valid(t: Table) {
    && (forall i :: 0 <= i < |t.rows| ==> 1 <= t.rows[i].id <= t.lastId)
    && (forall i, j :: 0 <= i < j < |t.rows| ==> t.rows[i].id < t.rows[j].id)
    && (forall i, j :: 0 <= i < j < |t.rows| ==> t.rows[i].transactionHash != t.rows[j].transactionHash)
    && (!t.hasProcessed ==> forall i :: 0 <= i < |t.rows| ==> t.rows[i].processed.None?)
  }

  /** `CREATE TABLE IF NOT EXISTS`: an existing table is kept as it is,
      whatever the schema; otherwise an empty table of that schema. */
  function CreateIfAbsent(db: Option<Table>, schema: Schema): (t: Table)
    requires db.Some? ==> Valid(db.value)
    ensures Valid(t)
    ensures db.Some? ==> t == db.value
    ensures db.None? ==> t.rows == [] && t.lastId == 0 && t.hasProcessed == schema.processedColumn
  {
    match db
    case Some(existing) => existing
    case None => Table(schema.processedColumn, [], 0)
  }

  /** The row an insert of `c` creates: the next AUTOINCREMENT id and the
      column default for `processed` (absent means NULL). */
  function NewRow(t: Table, c: SaveCall): Row {
    Row(t.lastId + 1, c.chain, c.event, c.transactionHash, c.sender, c.recipient, c.amount,
        if t.hasProcessed then Some(0) else None)
  }

  /** `INSERT OR IGNORE`. SQLite draws the next AUTOINCREMENT id before the
      unique constraint on `transactionHash` is checked. A call whose hash is
      already stored therefore leaves the rows as they were and is dropped
      silently, but it still uses up one id. Otherwise exactly one row is
      appended and no earlier row changes. */
  function InsertOrIgnore(t: Table, c: SaveCall): (r: Table)
    ensures r.hasProcessed == t.hasProcessed
    ensures r.lastId == t.lastId + 1
    ensures HasHash(t, c.transactionHash) ==> r.rows == t.rows
    ensures !HasHash(t, c.transactionHash) ==>
              && |r.rows| == |t.rows| + 1
              && r.rows[..|t.rows|] == t.rows
    ensures HasHash(r, c.transactionHash)
    ensures forall h :: HasHash(r, h) ==> HasHash(t, h) || h == c.transactionHash
  {
    if HasHash(t, c.transactionHash) then t.(lastId := t.lastId + 1)
    else
      var r := Table(t.hasProcessed, t.rows + [NewRow(t, c)], t.lastId + 1);
      assert r.rows[|t.rows|].transactionHash == c.transactionHash;
      r
  }

  /** A sequence of `saveEvent` calls, applied in call order. Each call
      adds at most one row and uses up exactly one id. */
  function SaveAll(t: Table, cs: seq<SaveCall>): (r: Table)
    ensures r.hasProcessed == t.hasProcessed
    ensures r.lastId == t.lastId + |cs|
    ensures |t.rows| <= |r.rows| <= |t.rows| + |cs|
    decreases |cs|
  {
    if cs == [] then t else SaveAll(InsertOrIgnore(t, cs[0]), cs[1..])
  }

  /** The pending-deposit condition of the relay's query: a Deposit whose
      `processed` is NULL or 0. */
  predicate IsPending(r: Row) {
    r.event == DepositEvent && (r.processed == None || r.processed == Some(0))
  }

  /** The pending rows of `rows`, in table order. */
  function PendingRows(rows: seq<Row>): (p: seq<Row>)
    ensures forall r :: r in p <==> r in rows && IsPending(r)
    ensures |p| <= |rows|
  {
    if rows == [] then []
    else if IsPending(rows[0]) then [rows[0]] + PendingRows(rows[1..])
    else PendingRows(rows[1..])
  }

  /** `getPendingDeposits`: fails when the table has no `processed` column. */
  function Pending(t: Table): (r: Result<seq<Row>, DbError>)
    ensures r.Failure? <==> !t.hasProcessed
    ensures r.Success? ==> forall x :: x in r.value <==> x in t.rows && IsPending(x)
  {
    if t.hasProcessed then Success(PendingRows(t.rows)) else Failure(NoSuchColumn)
  }

  function MarkRows(rows: seq<Row>, h: string): (m: seq<Row>)
    ensures |m| == |rows|
  {
    seq(|rows|, i requires 0 <= i < |rows| =>
      if rows[i].transactionHash == h then rows[i].(processed := Some(1)) else rows[i])
  }

  /** `markAsProcessed(h)`: sets `processed = 1` on the rows whose hash is
      `h` and on no other; fails when there is no `processed` column. */
  function MarkProcessed(t: Table, h: string): (r: Result<Table, DbError>)
    ensures r.Failure? <==> !t.hasProcessed
    ensures r.Success? ==>
              && r.value.hasProcessed && r.value.lastId == t.lastId
              && |r.value.rows| == |t.rows|
              && (forall i :: 0 <= i < |t.rows| && t.rows[i].transactionHash == h ==>
                    r.value.rows[i] == t.rows[i].(processed := Some(1)))
              && (forall i :: 0 <= i < |t.rows| && t.rows[i].transactionHash != h ==>
                    r.value.rows[i] == t.rows[i])
  {
    if t.hasProcessed then Success(t.(rows := MarkRows(t.rows, h))) else Failure(NoSuchColumn)
  }

  // ---------------------------------------------------------------------
  // Insert-or-ignore

  /** Inserting a fresh hash into a valid table adds one row whose id is one
      above the counter, hence above every id in use, with `processed = 0`
      under the store schema and NULL without the column; every earlier row
      is kept unchanged. */
  lemma InsertFresh(t: Table, c: SaveCall)
    requires Valid(t) && !HasHash(t, c.transactionHash)
    ensures var r := InsertOrIgnore(t, c);
            && r.rows == t.rows + [r.rows[|t.rows|]]
            && var n := r.rows[|t.rows|];
            && n.id == t.lastId + 1
            && (forall i :: 0 <= i < |t.rows| ==> t.rows[i].id < n.id)
            && n.chain == c.chain && n.event == c.event && n.transactionHash == c.transactionHash
            && n.sender == c.sender && n.recipient == c.recipient && n.amount == c.amount
            && (t.hasProcessed ==> n.processed == Some(0))
            && (!t.hasProcessed ==> n.processed == None)
  {
  }

  lemma InsertPreservesValid(t: Table, c: SaveCall)
    requires Valid(t)
    ensures Valid(InsertOrIgnore(t, c))
  {
    if !HasHash(t, c.transactionHash) {
      var r := InsertOrIgnore(t, c);
      assert r.rows == t.rows + [NewRow(t, c)];
      forall i, j | 0 <= i < j < |r.rows|
        ensures r.rows[i].transactionHash != r.rows[j].transactionHash
      {
        if j == |t.rows| {
          assert r.rows[i] == t.rows[i];
        }
      }
    }
  }

  /** Re-saving an event leaves the stored rows as one save left them and
      only uses up one more id. */
  lemma InsertIdempotent(t: Table, c: SaveCall)
    ensures var once := InsertOrIgnore(t, c);
            var twice := InsertOrIgnore(once, c);
            twice == once.(lastId := once.lastId + 1)
  {
  }

  /** A save that follows an ignored duplicate gets an id two above the
      counter before the duplicate: the ignored insert leaves a gap. */
  lemma DuplicateLeavesIdGap(t: Table, dup: SaveCall, next: SaveCall)
    requires HasHash(t, dup.transactionHash) && !HasHash(t, next.transactionHash)
    ensures var r := InsertOrIgnore(InsertOrIgnore(t, dup), next);
            && |r.rows| == |t.rows| + 1
            && r.rows[|t.rows|].id == t.lastId + 2
            && r.rows[|t.rows|].transactionHash == next.transactionHash
  {
  }

  /** Of two saves with one hash and any payloads, the first wins: the second
      leaves the rows as they were and only uses up one id, and a valid table
      then holds exactly one row with that hash, carrying the first payload. */
  lemma FirstSaveWins(t: Table, c1: SaveCall, c2: SaveCall)
    requires Valid(t) && !HasHash(t, c1.transactionHash)
    requires c2.transactionHash == c1.transactionHash
    ensures var r := InsertOrIgnore(InsertOrIgnore(t, c1), c2);
            && r.rows == InsertOrIgnore(t, c1).rows
            && r.lastId == InsertOrIgnore(t, c1).lastId + 1
            && (forall i :: 0 <= i < |r.rows| && r.rows[i].transactionHash == c1.transactionHash ==>
                  i == |t.rows| && r.rows[i] == NewRow(t, c1))
  {
    var r := InsertOrIgnore(t, c1);
    assert r.rows == t.rows + [NewRow(t, c1)];
  }

  // ---------------------------------------------------------------------
  // Sequences of saves

  /** Saving only appends: earlier rows stay where they are, unchanged, and
      the id counter never goes down, so ids are never reused. */
  lemma {:induction false} SaveAllExtends(t: Table, cs: seq<SaveCall>)
    ensures var r := SaveAll(t, cs);
            && r.hasProcessed == t.hasProcessed
            && |t.rows| <= |r.rows| && r.rows[..|t.rows|] == t.rows
            && t.lastId <= r.lastId
    decreases |cs|
  {
    if cs != [] {
      var t1 := InsertOrIgnore(t, cs[0]);
      SaveAllExtends(t1, cs[1..]);
      var r := SaveAll(t1, cs[1..]);
      assert r.rows[..|t.rows|] == r.rows[..|t1.rows|][..|t.rows|];
    }
  }

  lemma {:induction false} SaveAllPreservesValid(t: Table, cs: seq<SaveCall>)
    requires Valid(t)
    ensures Valid(SaveAll(t, cs))
    decreases |cs|
  {
    if cs != [] {
      InsertPreservesValid(t, cs[0]);
      SaveAllPreservesValid(InsertOrIgnore(t, cs[0]), cs[1..]);
    }
  }

  /** Every saved hash is stored afterwards, whether it was new or not. */
  lemma {:induction false} SaveAllStoresEveryHash(t: Table, cs: seq<SaveCall>)
    ensures forall k :: 0 <= k < |cs| ==> HasHash(SaveAll(t, cs), cs[k].transactionHash)
    decreases |cs|
  {
    if cs != [] {
      var t1 := InsertOrIgnore(t, cs[0]);
      SaveAllStoresEveryHash(t1, cs[1..]);
      SaveAllExtends(t1, cs[1..]);
      var r := SaveAll(t1, cs[1..]);
      forall k | 0 <= k < |cs|
        ensures HasHash(r, cs[k].transactionHash)
      {
        if k == 0 {
          var i :| 0 <= i < |t1.rows| && t1.rows[i].transactionHash == cs[0].transactionHash;
          assert r.rows[i] == r.rows[..|t1.rows|][i];
        } else {
          assert cs[k] == cs[1..][k - 1];
        }
      }
    }
  }

  /** Conversely, a sequence of saves stores no hash beyond those already
      stored and those saved. */
  lemma {:induction false} SaveAllOnlySaved(t: Table, cs: seq<SaveCall>, h: string)
    requires HasHash(SaveAll(t, cs), h)
    ensures HasHash(t, h) || exists k :: 0 <= k < |cs| && cs[k].transactionHash == h
    decreases |cs|
  {
    if cs != [] {
      var t1 := InsertOrIgnore(t, cs[0]);
      SaveAllOnlySaved(t1, cs[1..], h);
      if !HasHash(t1, h) {
        var k :| 0 <= k < |cs[1..]| && cs[1..][k].transactionHash == h;
        assert cs[k + 1] == cs[1..][k];
      }
    }
  }

  lemma {:induction false} SaveAllAppend(t: Table, a: seq<SaveCall>, b: seq<SaveCall>)
    ensures SaveAll(t, a + b) == SaveAll(SaveAll(t, a), b)
    decreases |a|
  {
    if a == [] {
      assert a + b == b;
    } else {
      assert (a + b)[0] == a[0] && (a + b)[1..] == a[1..] + b;
      SaveAllAppend(InsertOrIgnore(t, a[0]), a[1..], b);
    }
  }

  // ---------------------------------------------------------------------
  // Schemas

  /** Applying a schema to an existing table changes nothing, so whichever
      schema runs first decides whether `processed` exists: after the
      indexer's schema, applying the store schema leaves the table without
      the column, and every row's `processed` reads as absent. */
  lemma SchemaFirstWins(db: Option<Table>, first: Schema, second: Schema)
    requires db.Some? ==> Valid(db.value)
    ensures var t := CreateIfAbsent(db, first);
            CreateIfAbsent(Some(t), second) == t
    ensures db.None? ==> CreateIfAbsent(Some(CreateIfAbsent(db, first)), second).hasProcessed == first.processedColumn
  {
  }

  /** A table made by the indexer's schema never gains the column through
      the store schema, so its pending query fails. */
  lemma IndexerSchemaHidesProcessed(t: Table)
    requires Valid(t) && !t.hasProcessed
    ensures CreateIfAbsent(Some(t), StoreSchema) == t
    ensures Pending(CreateIfAbsent(Some(t), StoreSchema)).Failure?
    ensures forall r :: r in t.rows ==> r.processed == None
  {
  }

  // ---------------------------------------------------------------------
  // Pending filter and marking

  /** The filter keeps table order: it distributes over concatenation. */
  lemma {:induction false} PendingRowsAppend(a: seq<Row>, b: seq<Row>)
    ensures PendingRows(a + b) == PendingRows(a) + PendingRows(b)
    decreases |a|
  {
    if a == [] {
      assert a + b == b;
    } else {
      assert (a + b)[0] == a[0] && (a + b)[1..] == a[1..] + b;
      PendingRowsAppend(a[1..], b);
    }
  }

  /** Once marked, no row with that hash is pending. */
  lemma MarkRemovesFromPending(t: Table, h: string)
    requires t.hasProcessed
    ensures forall r :: r in Pending(MarkProcessed(t, h).value).value ==> r.transactionHash != h
  {
    var m := MarkProcessed(t, h).value;
    forall r | r in m.rows && IsPending(r)
      ensures r.transactionHash != h
    {
      var i :| 0 <= i < |m.rows| && m.rows[i] == r;
    }
  }

  /** Marking twice is marking once. */
  lemma MarkIdempotent(t: Table, h: string)
    requires t.hasProcessed
    ensures MarkProcessed(MarkProcessed(t, h).value, h) == MarkProcessed(t, h)
  {
    var m := MarkRows(t.rows, h);
    assert MarkRows(m, h) == m;
  }

  /** Marking an absent hash changes nothing. */
  lemma MarkAbsentNoop(t: Table, h: string)
    requires t.hasProcessed && !HasHash(t, h)
    ensures MarkProcessed(t, h) == Success(t)
  {
    assert MarkRows(t.rows, h) == t.rows;
  }

  /** Marking keeps ids, hashes and uniqueness: the table stays valid, and
      the set of stored hashes is the same before and after. */
  lemma MarkPreservesValid(t: Table, h: string)
    requires Valid(t) && t.hasProcessed
    ensures Valid(MarkProcessed(t, h).value)
    ensures forall x :: HasHash(MarkProcessed(t, h).value, x) == HasHash(t, x)
  {
    var m := MarkProcessed(t, h).value;
    forall x
      ensures HasHash(m, x) == HasHash(t, x)
    {
      if HasHash(t, x) {
        var i :| 0 <= i < |t.rows| && t.rows[i].transactionHash == x;
        assert m.rows[i].transactionHash == x;
      }
      if HasHash(m, x) {
        var i :| 0 <= i < |m.rows| && m.rows[i].transactionHash == x;
        assert t.rows[i].transactionHash == x;
      }
    }
  }
}

=== FILE: indexer.dfy ===
/** `startIndexing`: the periodic indexer run, guarded by a flag so that a
    tick arriving while a run is in flight is dropped. A run scans Holesky,
    then Sepolia, and always clears the flag on the way out. */
module Indexer {
  import opened EventStore
  import opened ChainReader

  const Holesky := "Holesky"
  const Sepolia := "Sepolia"

  /** The `isIndexing` flag. */
  datatype Guard = Idle | Running

  /** The state after one tick: the flag, the table, and the RPC reads the
      tick performed. */
  datatype Tick = Tick(guard: Guard, table: Table, trace: seq<Read>)

  /** One tick of the indexer. Each chain's errors are caught inside its own
      scan, so a failing Holesky scan still lets Sepolia be scanned, and the
      flag is released whatever happened. */
  function StartIndexing(g: Guard, t: Table, holesky: Chain, sepolia: Chain): (r: Tick)
    ensures g == Running ==> r == Tick(Running, t, [])
    ensures g == Idle ==> r.guard == Idle
  {
    match g
    case Running => Tick(Running, t, [])
    case Idle =>
      var h := FetchEvents(Holesky, holesky);
      var s := FetchEvents(Sepolia, sepolia);
      Tick(Idle, SaveAll(SaveAll(t, h.saves), s.saves), h.trace + s.trace)
  }

  /** A tick on an idle guard reads Holesky first and Sepolia after it, and
      always asks Sepolia for its latest block, even when the Holesky scan
      failed; a tick on a running guard reads nothing and changes nothing. */
  lemma TickReadOrder(g: Guard, t: Table, holesky: Chain, sepolia: Chain)
    ensures var r := StartIndexing(g, t, holesky, sepolia);
            g == Idle ==>
              && GetBlockNumber(Sepolia) in r.trace
              && (forall r1 :: r1 in r.trace ==> r1.chain == Holesky || r1.chain == Sepolia)
              && (forall i, j :: 0 <= i < j < |r.trace| && r.trace[i].chain == Sepolia ==>
                    r.trace[j].chain == Sepolia)
              && r.trace[0] == GetBlockNumber(Holesky)
  {
    if g == Idle {
      var h := FetchEvents(Holesky, holesky);
      var s := FetchEvents(Sepolia, sepolia);
      FetchReadsOneChain(Holesky, holesky);
      FetchReadsOneChain(Sepolia, sepolia);
      var tr := h.trace + s.trace;
      assert tr[|h.trace|] == GetBlockNumber(Sepolia);
      forall i, j | 0 <= i < j < |tr| && tr[i].chain == Sepolia
        ensures tr[j].chain == Sepolia
      {
        assert tr[j] in s.trace;
      }
    }
  }

  /** A tick only adds rows: every row stored before it is still stored, at
      the same place and unchanged, even when a scan failed part-way; the
      rows saved before a failure stay. The table stays valid. */
  lemma TickKeepsRows(g: Guard, t: Table, holesky: Chain, sepolia: Chain)
    requires Valid(t)
    ensures var r := StartIndexing(g, t, holesky, sepolia);
            && Valid(r.table)
            && |t.rows| <= |r.table.rows| && r.table.rows[..|t.rows|] == t.rows
            && r.table.lastId >= t.lastId
  {
    if g == Idle {
      var h := FetchEvents(Holesky, holesky);
      var s := FetchEvents(Sepolia, sepolia);
      SaveAllAppend(t, h.saves, s.saves);
      SaveAllExtends(t, h.saves + s.saves);
      SaveAllPreservesValid(t, h.saves + s.saves);
    }
  }

  /** After an idle tick the stored hashes are exactly the earlier ones
      plus those of every event the two scans delivered, from either chain
      and including those delivered before a failure. */
  lemma TickStoresScannedEvents(t: Table, holesky: Chain, sepolia: Chain, hash: string)
    ensures var r := StartIndexing(Idle, t, holesky, sepolia);
            var saves := FetchEvents(Holesky, holesky).saves + FetchEvents(Sepolia, sepolia).saves;
            && (forall k :: 0 <= k < |saves| ==> HasHash(r.table, saves[k].transactionHash))
            && (HasHash(r.table, hash) <==>
                  HasHash(t, hash) || exists k :: 0 <= k < |saves| && saves[k].transactionHash == hash)
  {
    var h := FetchEvents(Holesky, holesky);
    var s := FetchEvents(Sepolia, sepolia);
    var saves := h.saves + s.saves;
    SaveAllAppend(t, h.saves, s.saves);
    SaveAllStoresEveryHash(t, saves);
    SaveAllExtends(t, saves);
    var r := SaveAll(t, saves);
    if HasHash(r, hash) {
      SaveAllOnlySaved(t, saves, hash);
    }
    if HasHash(t, hash) {
      var i :| 0 <= i < |t.rows| && t.rows[i].transactionHash == hash;
      assert r.rows[i] == r.rows[..|t.rows|][i];
    }
  }
}

=== FILE: relay.dfy ===
/** `processDeposits`: one pass of the relay worker. It takes the pending
    deposits, and for each in turn validates it, scales its amount, calls
    `distribute` on the destination bridge, waits for the receipt and marks
    the deposit processed. The destination chain is an oracle that decides
    how each submitted call ends. */
module Relay {
  import opened Results
  import opened Amounts
  import opened EventStore

  /** A pending row as the loop reads it. `token` is `None` when the row has
      no such field, and stored rows never have one. */
  datatype Deposit = Deposit(
    token: Option<string>, recipient: string, amount: string, id: int, transactionHash: string)

  /** The arguments of `distribute(token, recipient, amount, depositNonce)`. */
  datatype DistributeCall = DistributeCall(token: string, recipient: string, amount: nat, depositNonce: int)

  /** How a submitted call ends: the submission throws, the receipt wait
      throws, or the transaction is confirmed. */
  datatype TxOutcome = SubmitFailed | ConfirmFailed | Confirmed

  /** The table after a pass and the `distribute` calls it submitted, in order. */
  datatype Pass = Pass(table: Table, calls: seq<DistributeCall>)

  /** The object `SELECT *` yields for a row: the table has no `token`
      column, so the field is undefined and the row always fails the
      missing-field check, whatever its other columns hold. */
  function FromRow(r: Row): (d: Deposit)
    ensures MissingField(d) && !Relayable(d)
  {
    Deposit(None, r.recipient, r.amount, r.id, r.transactionHash)
  }

  function FromRows(rows: seq<Row>): (ds: seq<Deposit>)
    ensures |ds| == |rows|
    ensures forall k :: 0 <= k < |rows| ==> ds[k] == FromRow(rows[k])
  {
    seq(|rows|, k requires 0 <= k < |rows| => FromRow(rows[k]))
  }

  /** JavaScript falsiness of the four checked fields: an undefined or
      empty token, an empty recipient or amount, a zero id. */
  predicate MissingField(d: Deposit) {
    d.token == None || d.token == Some("") || d.recipient == "" || d.amount == "" || d.id == 0
  }

  /** A deposit that passes both checks of the loop. */
  predicate Relayable(d: Deposit) {
    !MissingField(d) && IsDigits(d.amount)
  }

  /** The call a relayable deposit is meant to produce, written out
      independently of the loop: the token, the recipient, the amount's
      value times 10^18, and the row id as nonce. */
  function IntendedCall(d: Deposit): DistributeCall
    requires Relayable(d)
  {
    DistributeCall(d.token.value, d.recipient, DecimalValue(d.amount) * Pow10(TokenDecimals), d.id)
  }

  /** One iteration of the `for` loop. A deposit with a missing field or a
      non-numeric amount is skipped before any call; otherwise the amount is
      converted and `distribute` submitted, and only a confirmed transaction
      leads to `markAsProcessed`. Every error is caught inside the iteration. */
  function RelayOne(t: Table, d: Deposit, chain: DistributeCall -> TxOutcome): (p: Pass)
    ensures |p.calls| <= 1
    ensures p.calls != [] <==> Relayable(d)
    ensures p.calls != [] ==> p.calls[0] == IntendedCall(d)
    ensures p.table != t ==> p.calls != [] && chain(p.calls[0]) == Confirmed
    ensures p.table.hasProcessed == t.hasProcessed && p.table.lastId == t.lastId
    ensures |p.table.rows| == |t.rows|
  {
    if MissingField(d) then Pass(t, [])
    else if !IsDigits(d.amount) then Pass(t, [])
    else
      // `parseUnits` cannot throw here: the amount is a digit string.
      var scaled := ParseUnits(d.amount, TokenDecimals).value;
      var call := DistributeCall(d.token.value, d.recipient, scaled, d.id);
      match chain(call)
      case Confirmed =>
        (match MarkProcessed(t, d.transactionHash)
         case Success(marked) => Pass(marked, [call])
         case Failure(_) => Pass(t, [call]))
      case _ => Pass(t, [call])
  }

  /** The loop over a list of deposits, one at a time, in list order; a
      skipped or failed deposit does not stop the loop. */
  function RelayAll(t: Table, ds: seq<Deposit>, chain: DistributeCall -> TxOutcome): (p: Pass)
    ensures |p.calls| <= |ds|
    ensures p.table.hasProcessed == t.hasProcessed && p.table.lastId == t.lastId
    ensures |p.table.rows| == |t.rows|
    decreases |ds|
  {
    if ds == [] then Pass(t, [])
    else
      var first := RelayOne(t, ds[0], chain);
      var rest := RelayAll(first.table, ds[1..], chain);
      Pass(rest.table, first.calls + rest.calls)
  }

  /** `processDeposits`. A failing pending query is caught by the outer
      `catch`; an empty list ends the pass before the loop. */
  function ProcessDeposits(t: Table, chain: DistributeCall -> TxOutcome): (p: Pass)
    ensures Pending(t).Failure? ==> p == Pass(t, [])
    ensures Pending(t) == Success([]) ==> p == Pass(t, [])
  {
    match Pending(t)
    case Failure(_) => Pass(t, [])
    case Success(rows) =>
      if |rows| == 0 then Pass(t, []) else RelayAll(t, FromRows(rows), chain)
  }

  // ---------------------------------------------------------------------
  // Reference definitions

  /** The calls a list of deposits should produce: one per relayable
      deposit, in list order, whatever the chain answers. */
  function ExpectedCalls(ds: seq<Deposit>): seq<DistributeCall>
    decreases |ds|
  {
    if ds == [] then []
    else (if Relayable(ds[0]) then [IntendedCall(ds[0])] else []) + ExpectedCalls(ds[1..])
  }

  /** Whether some deposit of the list with hash `h` is relayable and its
      call is confirmed. */
  predicate ConfirmedIn(ds: seq<Deposit>, chain: DistributeCall -> TxOutcome, h: string) {
    exists j :: 0 <= j < |ds| && ds[j].transactionHash == h && Relayable(ds[j]) &&
      chain(IntendedCall(ds[j])) == Confirmed
  }

  // ---------------------------------------------------------------------
  // The loop

  /** The pass submits exactly the expected calls, in order: deposits are
      handled one at a time in the order given, skipped ones produce no
      call, and a failure does not stop the later ones. */
  lemma {:induction false} RelayAllCalls(t: Table, ds: seq<Deposit>, chain: DistributeCall -> TxOutcome)
    ensures RelayAll(t, ds, chain).calls == ExpectedCalls(ds)
    decreases |ds|
  {
    if ds != [] {
      var first := RelayOne(t, ds[0], chain);
      RelayAllCalls(first.table, ds[1..], chain);
    }
  }

  /** Whether deposit `d` is relayable, has hash `h` and its call is confirmed. */
  predicate ConfirmedBy(d: Deposit, chain: DistributeCall -> TxOutcome, h: string) {
    d.transactionHash == h && Relayable(d) && chain(IntendedCall(d)) == Confirmed
  }

  lemma ConfirmedInCons(ds: seq<Deposit>, chain: DistributeCall -> TxOutcome, h: string)
    requires ds != []
    ensures ConfirmedIn(ds, chain, h) <==> ConfirmedBy(ds[0], chain, h) || ConfirmedIn(ds[1..], chain, h)
  {
    if ConfirmedIn(ds[1..], chain, h) {
      var j :| 0 <= j < |ds[1..]| && ds[1..][j].transactionHash == h && Relayable(ds[1..][j]) &&
               chain(IntendedCall(ds[1..][j])) == Confirmed;
      assert ds[j + 1] == ds[1..][j];
    }
    if ConfirmedIn(ds, chain, h) && !ConfirmedBy(ds[0], chain, h) {
      var j :| 0 <= j < |ds| && ds[j].transactionHash == h && Relayable(ds[j]) &&
               chain(IntendedCall(ds[j])) == Confirmed;
      assert j > 0 && ds[1..][j - 1] == ds[j];
    }
  }

  /** One iteration marks exactly the rows whose hash is the deposit's, and
      only when the deposit is relayable and its call confirmed. */
  lemma RelayOneMarks(t: Table, d: Deposit, chain: DistributeCall -> TxOutcome)
    requires t.hasProcessed
    ensures var r := RelayOne(t, d, chain).table;
            && r.hasProcessed && r.lastId == t.lastId
            && |r.rows| == |t.rows|
            && forall i :: 0 <= i < |t.rows| ==>
                 r.rows[i] == if ConfirmedBy(d, chain, t.rows[i].transactionHash)
                              then t.rows[i].(processed := Some(1)) else t.rows[i]
  {
  }

  /** A row ends the pass marked processed exactly when a deposit with its
      hash was relayable and its call confirmed; every other row, including
      every skipped or failed deposit, is left exactly as it was. */
  lemma {:induction false} RelayAllMarks(t: Table, ds: seq<Deposit>, chain: DistributeCall -> TxOutcome)
    requires t.hasProcessed
    ensures var r := RelayAll(t, ds, chain).table;
            && r.hasProcessed && r.lastId == t.lastId
            && |r.rows| == |t.rows|
            && forall i :: 0 <= i < |t.rows| ==>
                 r.rows[i] == if ConfirmedIn(ds, chain, t.rows[i].transactionHash)
                              then t.rows[i].(processed := Some(1)) else t.rows[i]
    decreases |ds|
  {
    if ds != [] {
      var t1 := RelayOne(t, ds[0], chain).table;
      RelayOneMarks(t, ds[0], chain);
      RelayAllMarks(t1, ds[1..], chain);
      var r := RelayAll(t, ds, chain).table;
      assert r == RelayAll(t1, ds[1..], chain).table;
      forall i | 0 <= i < |t.rows|
        ensures r.rows[i] == if ConfirmedIn(ds, chain, t.rows[i].transactionHash)
                             then t.rows[i].(processed := Some(1)) else t.rows[i]
      {
        var h := t.rows[i].transactionHash;
        assert t1.rows[i].transactionHash == h;
        ConfirmedInCons(ds, chain, h);
      }
    }
  }

  /** Without a `processed` column every mark fails, so the pass changes
      nothing in the table, though it may submit calls. */
  lemma {:induction false} RelayAllWithoutColumn(t: Table, ds: seq<Deposit>, chain: DistributeCall -> TxOutcome)
    requires !t.hasProcessed
    ensures RelayAll(t, ds, chain).table == t
    decreases |ds|
  {
    if ds != [] {
      RelayAllWithoutColumn(RelayOne(t, ds[0], chain).table, ds[1..], chain);
    }
  }

  /** A deposit that fails validation, for instance with amount "abc",
      produces no call and its row is not marked by it. */
  lemma SkippedDepositUntouched(t: Table, d: Deposit, chain: DistributeCall -> TxOutcome)
    requires !Relayable(d)
    ensures RelayOne(t, d, chain) == Pass(t, [])
  {
  }

  // ---------------------------------------------------------------------
  // The pass over the stored table

  /** Stored rows never carry a token, so the loop skips every one of them:
      a pass over any table submits nothing and changes nothing. */
  lemma StoredRowsNeverRelayed(t: Table, chain: DistributeCall -> TxOutcome)
    ensures ProcessDeposits(t, chain) == Pass(t, [])
  {
    if t.hasProcessed {
      var rows := PendingRows(t.rows);
      if |rows| > 0 {
        NoneRelayable(t, FromRows(rows), chain);
      }
    }
  }

  /** No deposit the pending query hands to the loop is relayable. */
  lemma PendingDepositsNotRelayable(t: Table)
    ensures var ds := FromRows(PendingRows(t.rows));
            forall k :: 0 <= k < |ds| ==> !Relayable(ds[k])
  {
  }

  lemma {:induction false} NoneRelayable(t: Table, ds: seq<Deposit>, chain: DistributeCall -> TxOutcome)
    requires forall k :: 0 <= k < |ds| ==> !Relayable(ds[k])
    ensures RelayAll(t, ds, chain) == Pass(t, [])
    decreases |ds|
  {
    if ds != [] {
      NoneRelayable(t, ds[1..], chain);
    }
  }
}

=== FILE: results.dfy ===
/** Option and Result wrappers shared by the relay model. A `Failure` stands
    for a rejected promise or a thrown error in the modelled program. */
module Results {

  datatype Option<+T> = None | Some(value: T)

  datatype Result<+T, +E> = Success(value: T) | Failure(error: E)
}

=== FILE: scenario.dfy ===
/** The end-to-end path of one deposit: observed on the source chain,
    stored once, then seen by the relay. */
module Scenario {
  import opened Results
  import opened Amounts
  import opened EventStore
  import opened ChainReader
  import opened Relay

  /** A Deposit of `amount` (in the smallest unit) to "0xR" in transaction
      "0xabc"; the scenario uses two whole tokens, `2 * 10^18`. */
  function ObservedDeposit(amount: nat): DepositLog {
    DepositLog("0xabc", "0xT", "0xS", "0xR", amount, 7)
  }

  /** The row that deposit should become in a fresh store-schema table. */
  function ObservedRow(amount: nat): Row {
    Row(1, "Holesky", DepositEvent, "0xabc", "0xS", "0xR", ToDecimal(amount), Some(0))
  }

  /** Saving the log into a fresh store-schema table yields exactly one row,
      with id 1, `processed = 0` and an amount string that reads back as the
      amount, and that row is pending. Saving it again keeps that one row
      and only moves the id counter to 2. */
  lemma DepositStored(amount: nat)
    ensures var save := DepositSave("Holesky", ObservedDeposit(amount));
            var t1 := InsertOrIgnore(CreateIfAbsent(None, StoreSchema), save);
            && t1 == Table(true, [ObservedRow(amount)], 1)
            && DecimalValue(ObservedRow(amount).amount) == amount
            && Pending(t1) == Success(t1.rows)
            && InsertOrIgnore(t1, save) == Table(true, [ObservedRow(amount)], 2)
  {
    var t0 := CreateIfAbsent(None, StoreSchema);
    assert t0 == Table(true, [], 0);
    var save := DepositSave("Holesky", ObservedDeposit(amount));
    assert !HasHash(t0, save.transactionHash);
    var t1 := InsertOrIgnore(t0, save);
    var row := NewRow(t0, save);
    assert row == ObservedRow(amount);
    assert t1 == Table(true, [row], 1);
    assert IsPending(row);
    assert PendingRows([row]) == [row];
    assert t1.rows[0].transactionHash == save.transactionHash;
  }

  /** For two tokens, `2 * 10^18`, the deposit is stored as above, and the
      relay pass then skips its row because the row has no token: no
      `distribute` call, nothing marked. */
  lemma DepositAsWritten(amount: nat, chain: DistributeCall -> TxOutcome)
    requires amount == 2 * Pow10(18)
    ensures var t1 := Table(true, [ObservedRow(amount)], 1);
            && t1 == InsertOrIgnore(CreateIfAbsent(None, StoreSchema), DepositSave("Holesky", ObservedDeposit(amount)))
            && Pending(t1) == Success(t1.rows)
            && ProcessDeposits(t1, chain) == Pass(t1, [])
  {
    DepositStored(amount);
    StoredRowsNeverRelayed(Table(true, [ObservedRow(amount)], 1), chain);
  }

  /** Were the token carried along with the row, the relay would submit
      `distribute("0xT", "0xR", amount * 10^18, 1)` (the stored amount scaled
      by 10^18 once more: `2 * 10^36` for two tokens) and, once that call is
      confirmed, mark the row processed and leave nothing pending. */
  lemma DepositWithToken(amount: nat, chain: DistributeCall -> TxOutcome)
    requires chain(DistributeCall("0xT", "0xR", amount * Pow10(18), 1)) == Confirmed
    ensures var t1 := Table(true, [ObservedRow(amount)], 1);
            var d := FromRow(ObservedRow(amount)).(token := Some("0xT"));
            var p := RelayAll(t1, [d], chain);
            && p.calls == [DistributeCall("0xT", "0xR", amount * Pow10(18), 1)]
            && p.table == Table(true, [ObservedRow(amount).(processed := Some(1))], 1)
            && Pending(p.table) == Success([])
  {
    var row := ObservedRow(amount);
    var t1 := Table(true, [row], 1);
    var d := FromRow(row).(token := Some("0xT"));
    assert DecimalValue(d.amount) == amount;
    assert Relayable(d);
    assert IntendedCall(d) == DistributeCall("0xT", "0xR", amount * Pow10(18), 1);
    RelayAllCalls(t1, [d], chain);
    assert ExpectedCalls([d]) == [IntendedCall(d)];
    RelayAllMarks(t1, [d], chain);
    assert ConfirmedIn([d], chain, row.transactionHash);
    var m := RelayAll(t1, [d], chain).table;
    assert m.rows == [row.(processed := Some(1))];
    assert !IsPending(m.rows[0]);
    assert PendingRows(m.rows) == [];
  }
}
